=== FILE: README.md ===
# Entity-descriptor trees and annotation node matching

This project models two pure components of an ORM's descriptor layer. The
behaviour is the one the repository's JUnit tests `EDTRMethodsTestCase` and
`AnnotationNodeMatcherTestCase` pin down. The implementation classes those
tests exercise (`DefaultEntityDescriptorTreeRepository`,
`AnnotationNodeMatcher`, `SimpleEntityDescriptor`, `CacheEntityDescriptor`,
`SimpleNode`, and the `isChildInList` helper) are not part of this model as
source. The model is a behavioural specification written from the tests.

- **Descriptor tree builder** (`DescriptorTrees`). Given a root entity class,
  the builder reads the annotation metadata. Each class has a `@Table`, a
  `@PkColumn`, and `@Child` relations in declaration order; here these come
  from an explicit table. The builder then builds a tree of entity
  descriptors. A child is named by its `@Child(name=…)`, or else by the
  related class's primary-key column. A per-node callback sees whether the
  node is the root and the builder's name and entity class. The callback may
  replace the node's descriptor, graft children onto the node, and allow or
  stop descent. Declared relations are never discovered below a node that no
  longer holds a query descriptor. A root that does not hold a query
  descriptor aborts the build, which returns no tree.
- **Annotation node matcher** (`NodeMatchers`). A matcher is configured with
  a set of annotation types. It matches a node when the field or method
  behind the node's descriptor carries at least one of those annotations.
- `Trees` is the node container, with a traversal that visits every node once (modelled in pre-order).
  `Descriptors` holds the descriptor kinds. `Results` holds the option and
  result wrappers.
- `OrderFixtures` and `MatcherFixtures` hold the tests' fixture classes and
  callbacks, and the builds and matches the tests perform, as lemmas.
- `BuilderProperties` holds the builder's guarantees for every metadata
  table and every callback.

Acyclic metadata is a precondition. Every `EntityInfo` carries a `level`,
and `Ranked` requires levels to drop along relations. A class with no
metadata, used as the root or as a relation target, makes the build fail with
`MissingPrimaryKey`. A root left without a query descriptor makes it fail
with `NonQueryReadyRoot`, which stands for the `IllegalArgumentException` the
test expects.

## Model

| member | source | states |
|---|---|---|
| `Trees.Traverse` | src/test/java/com/asentinel/common/orm/ed/tree/EDTRMethodsTestCase.java:45 | the traversal the tests run over a built tree: it visits each node once, so it yields at least one value more than the node has children; the node-first order is the model's choice |
| `Trees.Size` | src/test/java/com/asentinel/common/orm/ed/tree/EDTRMethodsTestCase.java:150-156 | the node counter: the number of values the traversal visits |
| `Trees.AllIffTraverse` | src/test/java/com/asentinel/common/orm/ed/tree/EDTRMethodsTestCase.java:45-50 | a property holds at every node of a tree exactly when it holds of every descriptor the traversal visits |
| `NodeMatchers.Match` | src/test/java/com/asentinel/common/orm/ed/tree/AnnotationNodeMatcherTestCase.java:18-66 | a node matches iff the member behind its descriptor carries some configured annotation; a node without a member never matches |
| `NodeMatchers.MatchUnion` | src/test/java/com/asentinel/common/orm/ed/tree/AnnotationNodeMatcherTestCase.java:54-66 | a matcher for two annotations is the OR of the matchers for each |
| `NodeMatchers.FieldsAndMethodsAlike` | src/test/java/com/asentinel/common/orm/ed/tree/AnnotationNodeMatcherTestCase.java:18-34 | a field and a method carrying the same annotations get the same answer |
| `NodeMatchers.NoSharedAnnotationNoMatch` | src/test/java/com/asentinel/common/orm/ed/tree/AnnotationNodeMatcherTestCase.java:36-52 | a member carrying none of the configured annotations does not match; and, as a design property no test exercises, neither does a missing member |
| `MatcherFixtures.TestNode` | src/test/java/com/asentinel/common/orm/ed/tree/AnnotationNodeMatcherTestCase.java:21-24 | a single node holding a base descriptor for Object named "test", built on the given member |
| `MatcherFixtures.MatchAnnotatedField` | src/test/java/com/asentinel/common/orm/ed/tree/AnnotationNodeMatcherTestCase.java:18-25 | the TargetAnn matcher matches the field carrying TargetAnn |
| `MatcherFixtures.MatchAnnotatedMethod` | src/test/java/com/asentinel/common/orm/ed/tree/AnnotationNodeMatcherTestCase.java:27-34 | the TargetAnn matcher matches the method carrying TargetAnn |
| `MatcherFixtures.NoMatchPlainField` | src/test/java/com/asentinel/common/orm/ed/tree/AnnotationNodeMatcherTestCase.java:36-43 | the TargetAnn matcher rejects the unannotated field |
| `MatcherFixtures.NoMatchPlainMethod` | src/test/java/com/asentinel/common/orm/ed/tree/AnnotationNodeMatcherTestCase.java:45-52 | the TargetAnn matcher rejects the unannotated method |
| `MatcherFixtures.MatchEitherAnnotation` | src/test/java/com/asentinel/common/orm/ed/tree/AnnotationNodeMatcherTestCase.java:54-66 | the two-annotation matcher matches both the inherited `child` (TargetAnn only) and `child2` (TargetAnn2 only); and, as a consequence of the model that no test asserts, a TargetAnn-only matcher rejects `child2` |
| `DescriptorTrees.NoCallback` | src/test/java/com/asentinel/common/orm/ed/tree/EDTRMethodsTestCase.java:42 | the one-argument build: the callback that replaces nothing, grafts nothing and always descends |
| `DescriptorTrees.NodeName` | src/test/java/com/asentinel/common/orm/ed/tree/EDTRMethodsTestCase.java:167-173 | a node's name: the relation annotation's explicit name if given (DeliveryId), else the related class's primary-key column (DetailId, declared at line 192) |
| `DescriptorTrees.BuildNode` | src/test/java/com/asentinel/common/orm/ed/tree/EDTRMethodsTestCase.java:136-147 | only the root can cause the build to fail for lack of a query descriptor |
| `DescriptorTrees.BuildChildren` | src/test/java/com/asentinel/common/orm/ed/tree/EDTRMethodsTestCase.java:52-66 | a successful discovery yields exactly one child per declared relation; it can only fail for missing metadata |
| `DescriptorTrees.Build` | src/test/java/com/asentinel/common/orm/ed/tree/EDTRMethodsTestCase.java:121-133 | a built tree's root always holds a query descriptor; and, as a design property no test exercises, an unknown root class fails with MissingPrimaryKey |
| `BuilderProperties.NodeShape` | src/test/java/com/asentinel/common/orm/ed/tree/EDTRMethodsTestCase.java:76-99 | a node holds the descriptor the callback settled on and keeps the grafted children as given. It gets one declared child per relation exactly when descent is allowed and the node still holds a query descriptor |
| `BuilderProperties.ChildrenHoldSettledValues` | src/test/java/com/asentinel/common/orm/ed/tree/EDTRMethodsTestCase.java:138-147 | each declared child holds the descriptor the callback settled on when it visited that child's class |
| `BuilderProperties.ChildNaming` | src/test/java/com/asentinel/common/orm/ed/tree/EDTRMethodsTestCase.java:92-99 | when the callback never replaces a descriptor and never stops descent, the declared children follow the grafted ones, one per relation. Each is a query descriptor for the related class, reached through the relation's member, and named by the relation's explicit name or else by the related class's primary-key column |
| `BuilderProperties.PrunedNodeKeepsOnlyGrafts` | src/test/java/com/asentinel/common/orm/ed/tree/EDTRMethodsTestCase.java:136-147 | a non-root node whose descent is stopped, or whose descriptor was replaced by a non-query one, keeps only the grafted children |
| `BuilderProperties.NonRootNodeSucceeds` | src/test/java/com/asentinel/common/orm/ed/tree/EDTRMethodsTestCase.java:136-147 | with complete metadata, no callback can make a non-root node fail |
| `BuilderProperties.ChildrenSucceed` | src/test/java/com/asentinel/common/orm/ed/tree/EDTRMethodsTestCase.java:136-147 | with complete metadata, building the declared children never fails |
| `BuilderProperties.BuildFailsOnlyOnNonQueryRoot` | src/test/java/com/asentinel/common/orm/ed/tree/EDTRMethodsTestCase.java:121-133 | with complete metadata, a build fails exactly when the callback leaves the root without a query descriptor, and then with NonQueryReadyRoot |
| `BuilderProperties.NoCallbackNodeIsDeclared` | src/test/java/com/asentinel/common/orm/ed/tree/EDTRMethodsTestCase.java:52-66 | with complete metadata and without a callback, every node's build succeeds and mirrors the annotations: one child per relation, in order, recursively |
| `BuilderProperties.NoCallbackChildrenAreDeclared` | src/test/java/com/asentinel/common/orm/ed/tree/EDTRMethodsTestCase.java:52-66 | without a callback, the i-th declared child is the annotation tree of the i-th relation |
| `BuilderProperties.DeclaredUnique` | src/test/java/com/asentinel/common/orm/ed/tree/EDTRMethodsTestCase.java:42-70 | the annotations determine the declared tree uniquely |
| `BuilderProperties.DeclaredNodesAreQueries` | src/test/java/com/asentinel/common/orm/ed/tree/EDTRMethodsTestCase.java:45-50 | every node of a declared tree holds a query descriptor whose executor matches the repository's configuration |
| `BuilderProperties.NoCallbackTree` | src/test/java/com/asentinel/common/orm/ed/tree/EDTRMethodsTestCase.java:42-70 | with complete metadata, a build without a callback succeeds; it is the annotation tree rooted at the primary-key name; every node visited is a query descriptor with the configured executor |
| `BuilderProperties.GraftsKeepDeclaredNode` | src/test/java/com/asentinel/common/orm/ed/tree/EDTRMethodsTestCase.java:100-106 | a graft-only callback succeeds exactly when the plain build does, and the plain tree embeds unchanged into the grafted one |
| `BuilderProperties.GraftsKeepDeclaredChildren` | src/test/java/com/asentinel/common/orm/ed/tree/EDTRMethodsTestCase.java:100-106 | the same for each declared child of a node |
| `BuilderProperties.CachedNodesAreLeaves` | src/test/java/com/asentinel/common/orm/ed/tree/EDTRMethodsTestCase.java:136-156 | when the callback grafts nothing, every node without a query descriptor is a leaf |
| `BuilderProperties.CachedChildrenAreLeaves` | src/test/java/com/asentinel/common/orm/ed/tree/EDTRMethodsTestCase.java:136-156 | the same for each declared child subtree |
| `OrderFixtures.IsChildInList` | src/test/java/com/asentinel/common/orm/ed/tree/EDTRMethodsTestCase.java:55-56 | the lookup the test performs: some child holds a descriptor with the given name for the given entity class |
| `OrderFixtures.IsChildInListOrderFree` | src/test/java/com/asentinel/common/orm/ed/tree/EDTRMethodsTestCase.java:55-56 | the lookup does not depend on where a child sits: two child lists with the same elements in any order give the same answer |
| `OrderFixtures.GraftCached` | src/test/java/com/asentinel/common/orm/ed/tree/EDTRMethodsTestCase.java:77-88 | grafts a CachedId cache leaf under the root and under the node named DeliveryId, and always continues |
| `OrderFixtures.CacheRoot` | src/test/java/com/asentinel/common/orm/ed/tree/EDTRMethodsTestCase.java:124-131 | replaces the root's descriptor with a Cached2 cache descriptor named CachedId, and always continues |
| `OrderFixtures.CacheDetail` | src/test/java/com/asentinel/common/orm/ed/tree/EDTRMethodsTestCase.java:139-146 | replaces the descriptor of the Detail2 node with a Detail2 cache descriptor named DetailId, and always continues |
| `OrderFixtures.OrderRepo` | src/test/java/com/asentinel/common/orm/ed/tree/EDTRMethodsTestCase.java:160-262 | the Order2/Detail2/Option2/Delivery2/Cached2 metadata is acyclic and complete |
| `OrderFixtures.PlainBuild` | src/test/java/com/asentinel/common/orm/ed/tree/EDTRMethodsTestCase.java:42-70 | the plain build of Order2 is exactly the Orders, Details, Options and Deliveries tree |
| `OrderFixtures.PlainRootChildren` | src/test/java/com/asentinel/common/orm/ed/tree/EDTRMethodsTestCase.java:52-56 | the Orders root has exactly two children, DetailId (Detail2) and DeliveryId (Delivery2) |
| `OrderFixtures.PlainChildNaming` | src/test/java/com/asentinel/common/orm/ed/tree/EDTRMethodsTestCase.java:160-193 | DetailId is Detail2's primary-key column (no name on the relation); DeliveryId is the relation's explicit name |
| `OrderFixtures.PlainDescent` | src/test/java/com/asentinel/common/orm/ed/tree/EDTRMethodsTestCase.java:57-66 | Details has one child, OptionId (Option2); Options and Deliveries have none |
| `OrderFixtures.PlainOnlyFourTables` | src/test/java/com/asentinel/common/orm/ed/tree/EDTRMethodsTestCase.java:45-68 | the tree has four nodes, all query descriptors of the four tables, each with the executor set |
| `OrderFixtures.GraftedDetailBranch` | src/test/java/com/asentinel/common/orm/ed/tree/EDTRMethodsTestCase.java:100-106 | under the grafting callback the DetailId node and its OptionId child are built exactly as without a callback |
| `OrderFixtures.GraftedDeliveryBranch` | src/test/java/com/asentinel/common/orm/ed/tree/EDTRMethodsTestCase.java:107-113 | under the grafting callback the DeliveryId node gets exactly one child, the CachedId leaf |
| `OrderFixtures.GraftedBuild` | src/test/java/com/asentinel/common/orm/ed/tree/EDTRMethodsTestCase.java:76-89 | the build with the grafting callback is the plain tree plus a CachedId leaf under the root and under DeliveryId |
| `OrderFixtures.GraftsAddChildren` | src/test/java/com/asentinel/common/orm/ed/tree/EDTRMethodsTestCase.java:92-110 | the OrderId root has three children (DetailId, DeliveryId, CachedId) and DeliveryId has one (CachedId) |
| `OrderFixtures.GraftsLeaveOthersAlone` | src/test/java/com/asentinel/common/orm/ed/tree/EDTRMethodsTestCase.java:100-116 | DetailId still has only OptionId, OptionId and both CachedId nodes are leaves, and the plain tree embeds unchanged |
| `OrderFixtures.CacheRootFails` | src/test/java/com/asentinel/common/orm/ed/tree/EDTRMethodsTestCase.java:121-133 | replacing the root's descriptor with a cache descriptor fails the build with no tree |
| `OrderFixtures.PrunedBuild` | src/test/java/com/asentinel/common/orm/ed/tree/EDTRMethodsTestCase.java:136-147 | caching the Detail2 node gives the root, a childless cached Detail node, and the Delivery node |
| `OrderFixtures.CachedBranchPruned` | src/test/java/com/asentinel/common/orm/ed/tree/EDTRMethodsTestCase.java:148-156 | that tree has three nodes, the cached Detail node is a leaf, and no Option2 node is built |

## Left out

- Java reflection and annotation reading are replaced by the `Metadata` table and by marker sets on members. `ReflectionUtils.findField`'s superclass search is stood in for by giving the inherited `child` field directly.
- `parentRelationType` (`MANY_TO_ONE`) on `@Child` is not modelled: no test observes it.
- Row mappers, `SqlBuilderFactory` and `SqlQuery` are reduced to the `executorSet` flag of a query descriptor. It is set exactly when the repository has a factory configured.
- The pre-loaded instance lists of `CacheEntityDescriptor` and its duplicate-key check are not modelled: the tests only pass empty lists. A cache descriptor records only its class and primary-key column.
- Logging and `toStringAsTree` are left out: they have no effect on the tree.
- `isChildInList` is not part of this model as source. `IsChildInList` reads it as "some child has this name and entity class".
- The tests compare names and tables case-insensitively. The model compares them exactly, which is the same for the fixture's strings.
- Cyclic relations are excluded by the `Ranked` precondition instead of being reported as an error.
- Callbacks that return `false` are modelled by `descend`, but no test exercises them.
- Grafted children are placed before the declared ones, since the callback runs before discovery. No test asserts sibling order.
- `Trees.Traverse`: the visit order of the node container's `traverse` is not part of this model as source; the pre-order order (and the contract's `r[0] == t.value`) is assumed. The tests only count nodes and check each node, which no visit order affects.
- Declared children are taken in the declaration order of the relation members. The tests find children by name and never check positions, and Java reflection does not guarantee member order. The fixture lemmas that name children by index (`PlainBuild`, `PlainChildNaming`, `PlainDescent`, `GraftedBuild`, `GraftsAddChildren`, `GraftsLeaveOthersAlone`, `PrunedBuild`, `CachedBranchPruned`) rely on this order.
- Grafted children survive when the same callback call also replaces the node's descriptor. The tests do not decide this case.
- The mutable node API (`addChild`, `setValue`, `isRoot`) becomes the callback's returned `Customization`.
- Thread safety and reuse of the repository across concurrent builds are out of scope: the model is a pure function.
- A base `EntityDescriptor` (`Plain`) is treated like a cache descriptor by the builder: it cannot be a root and is never expanded.

=== FILE: builder_properties.dfy ===
/** What the descriptor tree builder guarantees for every metadata table and
    every callback. */
module BuilderProperties {
  import opened Results
  import opened Trees
  import opened Descriptors
  import opened DescriptorTrees

  /** The tree the annotations alone describe for class `t`: a query
      descriptor for `t` with the given name and member, and one child per
      declared relation, in declaration order, each the declared tree of the
      related class named after the annotation or the related primary key. */
  ghost predicate Declared(repo: Repository, t: TypeName, name: string, member: Option<Member>,
                           tree: Tree<Descriptor>)
    decreases tree
  {
    && t in repo.meta
    && tree.value == Query(t, repo.meta[t].table, repo.meta[t].pk, name, member, repo.executor)
    && |tree.children| == |repo.meta[t].relations|
    && forall i :: 0 <= i < |tree.children| ==>
         var rel := repo.meta[t].relations[i];
         && rel.target in repo.meta
         && Declared(repo, rel.target, NodeName(repo.meta, rel.target, rel.nameOverride),
                     Some(rel.member), tree.children[i])
  }

  /** The annotations determine the declared tree: two trees declared for
      the same class, name and member are the same tree. */
  lemma {:induction false} DeclaredUnique(repo: Repository, t: TypeName, name: string, member: Option<Member>,
                                          a: Tree<Descriptor>, b: Tree<Descriptor>)
    requires Declared(repo, t, name, member, a) && Declared(repo, t, name, member, b)
    ensures a == b
    decreases a
  {
    forall i | 0 <= i < |a.children| ensures a.children[i] == b.children[i] {
      var rel := repo.meta[t].relations[i];
      DeclaredUnique(repo, rel.target, NodeName(repo.meta, rel.target, rel.nameOverride),
                     Some(rel.member), a.children[i], b.children[i]);
    }
  }

  /** A query descriptor whose row mapper has (or lacks) the query executor. */
  function QueryWithExecutor(executor: bool): Descriptor -> bool {
    (d: Descriptor) => d.Query? && d.executorSet == executor
  }

  /** The callback never replaces a descriptor and never stops descent. */
  ghost predicate GraftOnly(cb: Callback) {
    forall v :: cb(v).replacement.None? && cb(v).descend
  }

  /** The callback never attaches children of its own. */
  ghost predicate GraftFree(cb: Callback) {
    forall v :: cb(v).grafted == []
  }

  /** A node that cannot drive a query has nothing below it. */
  predicate LeafUnlessQueryReady(n: Tree<Descriptor>) {
    !n.value.IsQueryReady() ==> n.children == []
  }

  /** One step of the build for any callback: the node holds the descriptor
      the callback settled on, keeps the grafted children as given, and gets
      one declared child per relation exactly when descent is allowed and the
      descriptor is still a query descriptor. */
  lemma NodeShape(repo: Repository, t: TypeName, nameOverride: Option<string>,
                  member: Option<Member>, isRoot: bool, cb: Callback)
    requires Ranked(repo.meta) && t in repo.meta
    ensures var v := VisitOf(repo, t, nameOverride, member, isRoot);
            var c := cb(v);
            var r := BuildNode(repo, t, nameOverride, member, isRoot, cb);
            r.Success? ==>
              && r.value.value == FinalValue(v, c)
              && |r.value.children| >= |c.grafted|
              && r.value.children[..|c.grafted|] == c.grafted
              && |r.value.children| == |c.grafted| +
                   (if c.descend && FinalValue(v, c).IsQueryReady() then |repo.meta[t].relations| else 0)
  {
  }

  /** Descent stopped by the callback, or a node turned into a non-query
      descriptor, yields no declared children: only what was grafted. */
  lemma PrunedNodeKeepsOnlyGrafts(repo: Repository, t: TypeName, nameOverride: Option<string>,
                                  member: Option<Member>, cb: Callback)
    requires Ranked(repo.meta) && t in repo.meta
    ensures var v := VisitOf(repo, t, nameOverride, member, false);
            var c := cb(v);
            var r := BuildNode(repo, t, nameOverride, member, false, cb);
            (!c.descend || !FinalValue(v, c).IsQueryReady()) ==>
              r.Success? && r.value.value == FinalValue(v, c) && r.value.children == c.grafted
  {
  }

  /** Each declared child holds the descriptor the callback settled on for
      the visit of its relation's class. */
  lemma {:induction false} ChildrenHoldSettledValues(repo: Repository, parent: TypeName, rels: seq<Relation>,
                                                     cb: Callback)
    requires Ranked(repo.meta) && parent in repo.meta
    requires forall i :: 0 <= i < |rels| && rels[i].target in repo.meta
               ==> repo.meta[rels[i].target].level < repo.meta[parent].level
    ensures var r := BuildChildren(repo, parent, rels, cb);
            r.Success? ==> forall i :: 0 <= i < |rels| ==>
              && rels[i].target in repo.meta
              && var v := VisitOf(repo, rels[i].target, rels[i].nameOverride, Some(rels[i].member), false);
                 r.value[i].value == FinalValue(v, cb(v))
    decreases |rels|
  {
    var r := BuildChildren(repo, parent, rels, cb);
    if rels != [] && r.Success? {
      ChildrenHoldSettledValues(repo, parent, rels[1..], cb);
      var rest := BuildChildren(repo, parent, rels[1..], cb);
      forall i | 0 <= i < |rels|
        ensures && rels[i].target in repo.meta
                && var v := VisitOf(repo, rels[i].target, rels[i].nameOverride, Some(rels[i].member), false);
                   r.value[i].value == FinalValue(v, cb(v))
      {
        if i > 0 {
          assert rels[i] == rels[1..][i - 1];
          assert r.value[i] == rest.value[i - 1];
        } else {
          NodeShape(repo, rels[0].target, rels[0].nameOverride, Some(rels[0].member), false, cb);
          var first := BuildNode(repo, rels[0].target, rels[0].nameOverride, Some(rels[0].member), false, cb);
          assert r.value[0] == first.value;
        }
      }
    }
  }

  /** Naming: when the callback never replaces a descriptor and never stops
      descent, the declared children of a
      node come after the grafted ones, one per relation in order, each a
      query descriptor for the related class, reached through the relation's
      member, and named by the relation's explicit name or else by the
      related class's primary-key column. */
  lemma ChildNaming(repo: Repository, t: TypeName, nameOverride: Option<string>,
                    member: Option<Member>, isRoot: bool, cb: Callback)
    requires Ranked(repo.meta) && t in repo.meta && GraftOnly(cb)
    ensures var v := VisitOf(repo, t, nameOverride, member, isRoot);
            var g := cb(v).grafted;
            var rels := repo.meta[t].relations;
            var r := BuildNode(repo, t, nameOverride, member, isRoot, cb);
            r.Success? ==>
              && |r.value.children| == |g| + |rels|
              && forall i :: 0 <= i < |rels| ==>
                   var d := r.value.children[|g| + i].value;
                   && rels[i].target in repo.meta
                   && d.Query? && d.entity == rels[i].target
                   && d.TargetMember() == Some(rels[i].member)
                   && d.Name() == (if rels[i].nameOverride.Some? then rels[i].nameOverride.value
                                   else repo.meta[rels[i].target].pk)
  {
    var v := VisitOf(repo, t, nameOverride, member, isRoot);
    var g := cb(v).grafted;
    var rels := repo.meta[t].relations;
    var r := BuildNode(repo, t, nameOverride, member, isRoot, cb);
    assert cb(v).replacement.None? && cb(v).descend;
    if r.Success? {
      ChildrenHoldSettledValues(repo, t, rels, cb);
      var d := BuildChildren(repo, t, rels, cb);
      assert r.value.children == g + d.value;
      forall i | 0 <= i < |rels|
        ensures var d := r.value.children[|g| + i].value;
                && rels[i].target in repo.meta
                && d.Query? && d.entity == rels[i].target
                && d.TargetMember() == Some(rels[i].member)
                && d.Name() == (if rels[i].nameOverride.Some? then rels[i].nameOverride.value
                                else repo.meta[rels[i].target].pk)
      {
        var w := VisitOf(repo, rels[i].target, rels[i].nameOverride, Some(rels[i].member), false);
        assert cb(w).replacement.None?;
        assert r.value.children[|g| + i] == d.value[i];
      }
    }
  }

  /** Below the root nothing can fail when every relation leads to a class
      with metadata. */
  lemma {:induction false} NonRootNodeSucceeds(repo: Repository, t: TypeName, nameOverride: Option<string>,
                                               member: Option<Member>, cb: Callback)
    requires Ranked(repo.meta) && Closed(repo.meta) && t in repo.meta
    ensures BuildNode(repo, t, nameOverride, member, false, cb).Success?
    decreases repo.meta[t].level, 1, 0
  {
    ChildrenSucceed(repo, t, repo.meta[t].relations, cb);
  }

  lemma {:induction false} ChildrenSucceed(repo: Repository, parent: TypeName, rels: seq<Relation>, cb: Callback)
    requires Ranked(repo.meta) && Closed(repo.meta) && parent in repo.meta
    requires forall i :: 0 <= i < |rels| ==> rels[i].target in repo.meta
    requires forall i :: 0 <= i < |rels| ==> repo.meta[rels[i].target].level < repo.meta[parent].level
    ensures BuildChildren(repo, parent, rels, cb).Success?
    decreases repo.meta[parent].level, 0, |rels|
  {
    if rels != [] {
      NonRootNodeSucceeds(repo, rels[0].target, rels[0].nameOverride, Some(rels[0].member), cb);
      ChildrenSucceed(repo, parent, rels[1..], cb);
    }
  }

  /** With complete metadata a build fails exactly when the callback leaves
      the root without a query descriptor, and then with that error. */
  lemma BuildFailsOnlyOnNonQueryRoot(repo: Repository, root: TypeName, cb: Callback)
    requires Ranked(repo.meta) && Closed(repo.meta) && root in repo.meta
    ensures var v := VisitOf(repo, root, None, None, true);
            var r := Build(repo, root, cb);
            && (r.Success? <==> FinalValue(v, cb(v)).IsQueryReady())
            && (r.Failure? ==> r.error == NonQueryReadyRoot(root))
  {
    var v := VisitOf(repo, root, None, None, true);
    if FinalValue(v, cb(v)).IsQueryReady() && cb(v).descend {
      ChildrenSucceed(repo, root, repo.meta[root].relations, cb);
    }
  }

  /** Without a callback, the build of class `t` succeeds and is exactly the
      tree the annotations describe. */
  lemma {:induction false} NoCallbackNodeIsDeclared(repo: Repository, t: TypeName,
                                                    nameOverride: Option<string>, member: Option<Member>, isRoot: bool)
    requires Ranked(repo.meta) && Closed(repo.meta) && t in repo.meta
    ensures var r := BuildNode(repo, t, nameOverride, member, isRoot, NoCallback);
            r.Success? && Declared(repo, t, NodeName(repo.meta, t, nameOverride), member, r.value)
    decreases repo.meta[t].level, 1, 0
  {
    var rels := repo.meta[t].relations;
    NoCallbackChildrenAreDeclared(repo, t, rels);
    var d := BuildChildren(repo, t, rels, NoCallback);
    var v := VisitOf(repo, t, nameOverride, member, isRoot);
    assert FinalValue(v, NoCallback(v)) == v.proposed;
    var r := BuildNode(repo, t, nameOverride, member, isRoot, NoCallback);
    assert r == Success(Node(v.proposed, [] + d.value));
    assert r.value.children == d.value;
  }

  lemma {:induction false} NoCallbackChildrenAreDeclared(repo: Repository, parent: TypeName, rels: seq<Relation>)
    requires Ranked(repo.meta) && Closed(repo.meta) && parent in repo.meta
    requires forall i :: 0 <= i < |rels| ==> rels[i].target in repo.meta
    requires forall i :: 0 <= i < |rels| ==> repo.meta[rels[i].target].level < repo.meta[parent].level
    ensures var r := BuildChildren(repo, parent, rels, NoCallback);
            && r.Success?
            && forall i :: 0 <= i < |rels| ==>
                 Declared(repo, rels[i].target, NodeName(repo.meta, rels[i].target, rels[i].nameOverride),
                          Some(rels[i].member), r.value[i])
    decreases repo.meta[parent].level, 0, |rels|
  {
    if rels != [] {
      NoCallbackNodeIsDeclared(repo, rels[0].target, rels[0].nameOverride, Some(rels[0].member), false);
      NoCallbackChildrenAreDeclared(repo, parent, rels[1..]);
      var r := BuildChildren(repo, parent, rels, NoCallback);
      var rest := BuildChildren(repo, parent, rels[1..], NoCallback);
      forall i | 0 <= i < |rels|
        ensures Declared(repo, rels[i].target, NodeName(repo.meta, rels[i].target, rels[i].nameOverride),
                         Some(rels[i].member), r.value[i])
      {
        if i > 0 {
          assert rels[i] == rels[1..][i - 1];
          assert r.value[i] == rest.value[i - 1];
        }
      }
    }
  }

  /** Every node of a declared tree holds a query descriptor whose executor
      is set exactly when the repository has one. */
  lemma {:induction false} DeclaredNodesAreQueries(repo: Repository, t: TypeName, name: string,
                                                   member: Option<Member>, tree: Tree<Descriptor>)
    requires Declared(repo, t, name, member, tree)
    ensures All(tree, QueryWithExecutor(repo.executor))
    decreases tree
  {
    forall i | 0 <= i < |tree.children| ensures All(tree.children[i], QueryWithExecutor(repo.executor)) {
      var rel := repo.meta[t].relations[i];
      DeclaredNodesAreQueries(repo, rel.target, NodeName(repo.meta, rel.target, rel.nameOverride),
                              Some(rel.member), tree.children[i]);
    }
  }

  /** The build without a callback: it succeeds, it mirrors the annotations
      (the root named after its primary-key column), and every node it
      visits holds a query descriptor carrying the repository's executor. */
  lemma NoCallbackTree(repo: Repository, root: TypeName)
    requires Ranked(repo.meta) && Closed(repo.meta) && root in repo.meta
    ensures var r := Build(repo, root, NoCallback);
            && r.Success?
            && Declared(repo, root, repo.meta[root].pk, None, r.value)
            && forall k :: 0 <= k < |Traverse(r.value)| ==>
                 Traverse(r.value)[k].Query? && Traverse(r.value)[k].executorSet == repo.executor
  {
    NoCallbackNodeIsDeclared(repo, root, None, None, true);
    var r := Build(repo, root, NoCallback);
    DeclaredNodesAreQueries(repo, root, repo.meta[root].pk, None, r.value);
    AllIffTraverse(r.value, QueryWithExecutor(repo.executor));
  }

  /** With a callback that only grafts, the build succeeds exactly when the
      plain build does, and the plain tree survives in it node for node:
      grafting adds children in front but changes no declared subtree. */
  lemma {:induction false} GraftsKeepDeclaredNode(repo: Repository, t: TypeName, nameOverride: Option<string>,
                                                  member: Option<Member>, isRoot: bool, cb: Callback)
    requires Ranked(repo.meta) && t in repo.meta && GraftOnly(cb)
    ensures var big := BuildNode(repo, t, nameOverride, member, isRoot, cb);
            var small := BuildNode(repo, t, nameOverride, member, isRoot, NoCallback);
            && (big.Success? <==> small.Success?)
            && (big.Success? ==> Embeds(small.value, big.value))
    decreases repo.meta[t].level, 1, 0
  {
    GraftsKeepDeclaredChildren(repo, t, repo.meta[t].relations, cb);
    var v := VisitOf(repo, t, nameOverride, member, isRoot);
    var big := BuildNode(repo, t, nameOverride, member, isRoot, cb);
    var small := BuildNode(repo, t, nameOverride, member, isRoot, NoCallback);
    assert cb(v).replacement.None? && cb(v).descend;
    if big.Success? {
      var db := BuildChildren(repo, t, repo.meta[t].relations, cb);
      var ds := BuildChildren(repo, t, repo.meta[t].relations, NoCallback);
      var g := cb(v).grafted;
      assert big.value.children == g + db.value;
      assert small.value.children == [] + ds.value;
      forall i | 0 <= i < |small.value.children|
        ensures Embeds(small.value.children[i],
                       big.value.children[|big.value.children| - |small.value.children| + i])
      {
        assert big.value.children[|g| + i] == db.value[i];
      }
    }
  }

  lemma {:induction false} GraftsKeepDeclaredChildren(repo: Repository, parent: TypeName, rels: seq<Relation>,
                                                      cb: Callback)
    requires Ranked(repo.meta) && parent in repo.meta && GraftOnly(cb)
    requires forall i :: 0 <= i < |rels| && rels[i].target in repo.meta
               ==> repo.meta[rels[i].target].level < repo.meta[parent].level
    ensures var big := BuildChildren(repo, parent, rels, cb);
            var small := BuildChildren(repo, parent, rels, NoCallback);
            && (big.Success? <==> small.Success?)
            && (big.Success? ==> forall i :: 0 <= i < |rels| ==> Embeds(small.value[i], big.value[i]))
    decreases repo.meta[parent].level, 0, |rels|
  {
    if rels != [] && rels[0].target in repo.meta {
      GraftsKeepDeclaredNode(repo, rels[0].target, rels[0].nameOverride, Some(rels[0].member), false, cb);
      GraftsKeepDeclaredChildren(repo, parent, rels[1..], cb);
      var big := BuildChildren(repo, parent, rels, cb);
      var small := BuildChildren(repo, parent, rels, NoCallback);
      if big.Success? {
        var bigRest := BuildChildren(repo, parent, rels[1..], cb);
        var smallRest := BuildChildren(repo, parent, rels[1..], NoCallback);
        forall i | 0 <= i < |rels| ensures Embeds(small.value[i], big.value[i]) {
          if i > 0 {
            assert big.value[i] == bigRest.value[i - 1];
            assert small.value[i] == smallRest.value[i - 1];
          }
        }
      }
    }
  }

  /** With a callback that grafts nothing, every node that does not hold a
      query descriptor (a cached branch) is a leaf: nothing is discovered
      below it. */
  lemma {:induction false} CachedNodesAreLeaves(repo: Repository, t: TypeName, nameOverride: Option<string>,
                                                member: Option<Member>, isRoot: bool, cb: Callback)
    requires Ranked(repo.meta) && t in repo.meta && GraftFree(cb)
    ensures var r := BuildNode(repo, t, nameOverride, member, isRoot, cb);
            r.Success? ==> Everywhere(r.value, LeafUnlessQueryReady)
    decreases repo.meta[t].level, 1, 0
  {
    CachedChildrenAreLeaves(repo, t, repo.meta[t].relations, cb);
    var v := VisitOf(repo, t, nameOverride, member, isRoot);
    var r := BuildNode(repo, t, nameOverride, member, isRoot, cb);
    assert cb(v).grafted == [];
    if r.Success? {
      if cb(v).descend && FinalValue(v, cb(v)).IsQueryReady() {
        var d := BuildChildren(repo, t, repo.meta[t].relations, cb);
        assert r.value.children == [] + d.value;
        assert forall i :: 0 <= i < |r.value.children| ==> Everywhere(r.value.children[i], LeafUnlessQueryReady);
      } else {
        assert r.value.children == [];
      }
    }
  }

  lemma {:induction false} CachedChildrenAreLeaves(repo: Repository, parent: TypeName, rels: seq<Relation>,
                                                   cb: Callback)
    requires Ranked(repo.meta) && parent in repo.meta && GraftFree(cb)
    requires forall i :: 0 <= i < |rels| && rels[i].target in repo.meta
               ==> repo.meta[rels[i].target].level < repo.meta[parent].level
    ensures var r := BuildChildren(repo, parent, rels, cb);
            r.Success? ==> forall i :: 0 <= i < |r.value| ==> Everywhere(r.value[i], LeafUnlessQueryReady)
    decreases repo.meta[parent].level, 0, |rels|
  {
    if rels != [] && rels[0].target in repo.meta {
      CachedNodesAreLeaves(repo, rels[0].target, rels[0].nameOverride, Some(rels[0].member), false, cb);
      CachedChildrenAreLeaves(repo, parent, rels[1..], cb);
      var r := BuildChildren(repo, parent, rels, cb);
      if r.Success? {
        var rest := BuildChildren(repo, parent, rels[1..], cb);
        forall i | 0 <= i < |r.value| ensures Everywhere(r.value[i], LeafUnlessQueryReady) {
          if i > 0 { assert r.value[i] == rest.value[i - 1]; }
        }
      }
    }
  }
}

=== FILE: descriptor_trees.dfy ===
/** The entity-descriptor tree builder: from a root entity class, a metadata
    table standing for the class annotations, and an optional per-node
    callback, it builds the tree of descriptors the query layer walks. */
module DescriptorTrees {
  import opened Results
  import opened Trees
  import opened Descriptors

  /** One child relation declared on an entity class: the related class, the
      name given in the relation annotation (if any) and the annotated member. */
  datatype Relation = Relation(target: TypeName, nameOverride: Option<string>, member: Member)

  /** What the annotations of one entity class say: its table, its
      primary-key column, its child relations in declaration order, and a
      `level` that witnesses the relation graph has no cycle. */
  datatype EntityInfo = EntityInfo(table: string, pk: string, relations: seq<Relation>, level: nat)

  /** The annotation metadata of every entity class that has some; a class
      absent from the table has no primary-key column. */
  type Metadata = map<TypeName, EntityInfo>

  /** The relation graph is acyclic: every relation to a described class leads
      to a strictly lower level. */
  predicate Ranked(meta: Metadata) {
    forall t, i :: t in meta && 0 <= i < |meta[t].relations| && meta[t].relations[i].target in meta
      ==> meta[meta[t].relations[i].target].level < meta[t].level
  }

  /** Every relation leads to a class that has metadata. */
  predicate Closed(meta: Metadata) {
    forall t, i :: t in meta && 0 <= i < |meta[t].relations| ==> meta[t].relations[i].target in meta
  }

  /** The repository: its metadata and whether an SQL builder factory (and so
      a query executor for the row mappers) has been configured. */
  datatype Repository = Repository(meta: Metadata, executor: bool)

  /** What the callback learns about a node from the descriptor builder. */
  datatype BuilderInfo = BuilderInfo(name: string, entity: TypeName)

  /** One call of the callback: whether the node is the root, the builder
      information, and the query descriptor the builder would put there. */
  datatype Visit = Visit(isRoot: bool, info: BuilderInfo, proposed: Descriptor)

  /** The callback's answer: a descriptor to put in the node instead of the
      proposed one, children to attach to the node as they are, and whether
      the builder may go on to discover the node's declared relations. */
  datatype Customization = Customization(replacement: Option<Descriptor>,
                                         grafted: seq<Tree<Descriptor>>,
                                         descend: bool)

  type Callback = Visit -> Customization

  /** Why a build is aborted. */
  datatype BuildError =
    | MissingPrimaryKey(entity: TypeName)   // a root or relation target without metadata
    | NonQueryReadyRoot(entity: TypeName)   // the callback left a root that cannot drive a query

  /** The callback used when the caller gives none: it changes nothing. */
  function NoCallback(v: Visit): Customization
  {
    Customization(None, [], true)
  }

  /** A node's name: the name given in the relation annotation, else the
      primary-key column of the related class. */
  function NodeName(meta: Metadata, t: TypeName, nameOverride: Option<string>): string
    requires t in meta
  {
    nameOverride.GetOr(meta[t].pk)
  }

  /** The query descriptor the builder proposes for class `t`. */
  function Proposed(repo: Repository, t: TypeName, name: string, member: Option<Member>): Descriptor
    requires t in repo.meta
  {
    Query(t, repo.meta[t].table, repo.meta[t].pk, name, member, repo.executor)
  }

  /** The visit the callback receives for a node of class `t`. */
  function VisitOf(repo: Repository, t: TypeName, nameOverride: Option<string>,
                   member: Option<Member>, isRoot: bool): Visit
    requires t in repo.meta
  {
    var name := NodeName(repo.meta, t, nameOverride);
    Visit(isRoot, BuilderInfo(name, t), Proposed(repo, t, name, member))
  }

  /** The descriptor a node ends up with once the callback has run. */
  function FinalValue(v: Visit, c: Customization): Descriptor
  {
    c.replacement.GetOr(v.proposed)
  }

  /** Builds the node for class `t` and, unless the callback stops it or the
      node no longer holds a query descriptor, the subtrees of its declared
      relations. Children the callback grafted come first and are kept as given. */
  function BuildNode(repo: Repository, t: TypeName, nameOverride: Option<string>,
                     member: Option<Member>, isRoot: bool, cb: Callback): (r: Result<Tree<Descriptor>, BuildError>)
    requires Ranked(repo.meta)
    requires t in repo.meta
    ensures r.Failure? && r.error.NonQueryReadyRoot? ==> isRoot && r.error.entity == t
    decreases repo.meta[t].level, 1, 0
  {
    var v := VisitOf(repo, t, nameOverride, member, isRoot);
    var c := cb(v);
    var value := FinalValue(v, c);
    if isRoot && !value.IsQueryReady() then
      Failure(NonQueryReadyRoot(t))
    else if c.descend && value.IsQueryReady() then
      var declared :- BuildChildren(repo, t, repo.meta[t].relations, cb);
      Success(Node(value, c.grafted + declared))
    else
      Success(Node(value, c.grafted))
  }

  /** Builds, in order, the subtrees of the relations `rels` declared on `parent`. */
  function BuildChildren(repo: Repository, parent: TypeName, rels: seq<Relation>, cb: Callback)
    : (r: Result<seq<Tree<Descriptor>>, BuildError>)
    requires Ranked(repo.meta)
    requires parent in repo.meta
    requires forall i :: 0 <= i < |rels| && rels[i].target in repo.meta
               ==> repo.meta[rels[i].target].level < repo.meta[parent].level
    ensures r.Success? ==> |r.value| == |rels|
    ensures r.Failure? ==> r.error.MissingPrimaryKey?
    decreases repo.meta[parent].level, 0, |rels|
  {
    if rels == [] then Success([])
    else if rels[0].target !in repo.meta then Failure(MissingPrimaryKey(rels[0].target))
    else
      var first :- BuildNode(repo, rels[0].target, rels[0].nameOverride, Some(rels[0].member), false, cb);
      var rest :- BuildChildren(repo, parent, rels[1..], cb);
      Success([first] + rest)
  }

  /** The repository's entry point: the descriptor tree of `root`, customised
      by `cb`. The root always holds a query descriptor named after its
      primary-key column. */
  function Build(repo: Repository, root: TypeName, cb: Callback): (r: Result<Tree<Descriptor>, BuildError>)
    requires Ranked(repo.meta)
    ensures root !in repo.meta ==> r == Failure(MissingPrimaryKey(root))
    ensures r.Success? ==> r.value.value.IsQueryReady()
    ensures r.Failure? && r.error.NonQueryReadyRoot? ==> r.error.entity == root
  {
    if root !in repo.meta then Failure(MissingPrimaryKey(root))
    else BuildNode(repo, root, None, None, true, cb)
  }
}

=== FILE: descriptors.dfy ===
/** Entity descriptors: the payload of every node of a descriptor tree. */
module Descriptors {
  import opened Results

  /** An entity class, named by its simple class name. */
  type TypeName = string

  /** A runtime-visible annotation type, named by its simple name. */
  type Marker = string

  /** The reflective member a descriptor was discovered through, with the
      runtime-visible annotations declared on it. */
  datatype Member =
    | Field(name: string, markers: set<Marker>)
    | Method(name: string, markers: set<Marker>)

  /** The three descriptor classes:
      - `Plain`: the base descriptor, built directly from a class, two row
        mappers, a name and a target member; it cannot drive a query;
      - `Query`: a descriptor the query layer can join on (table, primary-key
        column); `executorSet` says whether its row mapper was given the
        query executor used to load deferred columns lazily;
      - `Cache`: a descriptor served from already loaded instances, named
        after its primary-key column and backed by no member. */
  datatype Descriptor =
    | Plain(entity: TypeName, name: string, member: Option<Member>)
    | Query(entity: TypeName, table: string, pk: string, name: string,
            member: Option<Member>, executorSet: bool)
    | Cache(entity: TypeName, pk: string)
  {
    /** The name the descriptor is known by; a cache descriptor is known by
        its primary-key column. */
    function Name(): string
    {
      if Cache? then pk else name
    }

    /** Only query descriptors can be joined on and expanded further. */
    predicate IsQueryReady() {
      Query?
    }

    /** The member behind the descriptor, if there is one. */
    function TargetMember(): Option<Member>
    {
      if Cache? then None else member
    }
  }
}

=== FILE: matcher_fixtures.dfy ===
/** The annotated and unannotated test members and what the annotation node
    matcher answers for them. */
module MatcherFixtures {
  import opened Results
  import opened Trees
  import opened Descriptors
  import opened NodeMatchers

  const TargetAnn: Marker := "TargetAnn"
  const TargetAnn2: Marker := "TargetAnn2"

  /** `child` of AnnotatedFieldTest carries TargetAnn. */
  const AnnotatedField: Member := Field("child", {TargetAnn})
  /** `setChild` of AnnotatedMethodTest carries TargetAnn. */
  const AnnotatedMethod: Member := Method("setChild", {TargetAnn})
  /** `child` of NotAnnotatedFieldTest carries no runtime-visible annotation. */
  const PlainField: Member := Field("child", {})
  /** `setChild` of NotAnnotatedMethodTest carries no runtime-visible annotation. */
  const PlainMethod: Member := Method("setChild", {})
  /** DoubleAnnotatedFieldTest declares `child2` with TargetAnn2 and inherits
      `child` (with TargetAnn) from AnnotatedFieldTest. */
  const InheritedField: Member := AnnotatedField
  const SecondField: Member := Field("child2", {TargetAnn2})

  /** A node holding a base descriptor for Object named "test", built on `m`. */
  function TestNode(m: Member): Tree<Descriptor> {
    Node(Plain("Object", "test", Some(m)), [])
  }

  lemma MatchAnnotatedField()
    ensures Match(AnnotationNodeMatcher({TargetAnn}), TestNode(AnnotatedField))
  {
  }

  lemma MatchAnnotatedMethod()
    ensures Match(AnnotationNodeMatcher({TargetAnn}), TestNode(AnnotatedMethod))
  {
  }

  lemma NoMatchPlainField()
    ensures !Match(AnnotationNodeMatcher({TargetAnn}), TestNode(PlainField))
  {
  }

  lemma NoMatchPlainMethod()
    ensures !Match(AnnotationNodeMatcher({TargetAnn}), TestNode(PlainMethod))
  {
  }

  /** A matcher for both annotations matches a member carrying either one. */
  lemma MatchEitherAnnotation()
    ensures Match(AnnotationNodeMatcher({TargetAnn, TargetAnn2}), TestNode(InheritedField))
    ensures Match(AnnotationNodeMatcher({TargetAnn, TargetAnn2}), TestNode(SecondField))
    ensures !Match(AnnotationNodeMatcher({TargetAnn}), TestNode(SecondField))
  {
  }
}

=== FILE: node_matchers.dfy ===
/** A node matcher that selects the nodes whose descriptor was discovered
    through a member carrying at least one of a configured set of annotations. */
module NodeMatchers {
  import opened Results
  import opened Trees
  import opened Descriptors

  /** The matcher is configured with the annotation types it looks for. */
  datatype AnnotationNodeMatcher = AnnotationNodeMatcher(markers: set<Marker>)

  /** `d` is backed by a member on which annotation `a` is declared. */
  predicate Carries(d: Descriptor, a: Marker) {
    d.TargetMember().Some? && a in d.TargetMember().value.markers
  }

  /** The node matches when its descriptor's member carries some configured
      annotation: an OR over the configured set, false when there is no member. */
  function Match(m: AnnotationNodeMatcher, node: Tree<Descriptor>): (r: bool)
    ensures r <==> exists a :: a in m.markers && Carries(node.value, a)
  {
    match node.value.TargetMember()
    case None => false
    case Some(mem) =>
      if m.markers * mem.markers == {} then
        assert forall a :: Carries(node.value, a) ==> a in mem.markers;
        assert forall a :: a in m.markers && a in mem.markers ==> a in m.markers * mem.markers;
        false
      else
        var a :| a in m.markers * mem.markers;
        assert Carries(node.value, a);
        true
  }

  /** Configuring more annotations can only widen what matches: a matcher for
      `xs + ys` matches exactly the nodes either part matches. */
  lemma MatchUnion(xs: set<Marker>, ys: set<Marker>, node: Tree<Descriptor>)
    ensures Match(AnnotationNodeMatcher(xs + ys), node)
            <==> Match(AnnotationNodeMatcher(xs), node) || Match(AnnotationNodeMatcher(ys), node)
  {
  }

  /** Fields and methods follow the same rule: only the annotations count. */
  lemma FieldsAndMethodsAlike(m: AnnotationNodeMatcher, d: Descriptor, f: string, g: string,
                              ms: set<Marker>, cs: seq<Tree<Descriptor>>, ds: seq<Tree<Descriptor>>)
    requires !d.Cache?
    ensures Match(m, Node(d.(member := Some(Field(f, ms))), cs))
            == Match(m, Node(d.(member := Some(Method(g, ms))), ds))
  {
  }

  /** A node whose member carries none of the configured annotations does
      not match; nor does a node without a member (a cache descriptor, or a
      descriptor built without one). */
  lemma NoSharedAnnotationNoMatch(m: AnnotationNodeMatcher, node: Tree<Descriptor>)
    ensures node.value.TargetMember().None? ==> !Match(m, node)
    ensures node.value.TargetMember().Some? && m.markers !! node.value.TargetMember().value.markers
            ==> !Match(m, node)
  {
  }
}

=== FILE: order_fixtures.dfy ===
/** The Order2 / Detail2 / Option2 / Delivery2 / Cached2 entity classes and
    the four builds the repository's tests perform on them. */
module OrderFixtures {
  import opened Results
  import opened Trees
  import opened Descriptors
  import opened DescriptorTrees
  import opened BuilderProperties

  /** The relation annotation, as a marker on the member that declares it. */
  const ChildMarker: Marker := "Child"

  const AddDetail: Member := Method("addDetail", {ChildMarker})
  const SetDelivery: Member := Method("setDelivery", {ChildMarker})
  const AddOption: Member := Method("addOption", {ChildMarker})

  /** Order2 (table Orders) declares a relation to Detail2 with no name and
      one to Delivery2 named DeliveryId; Detail2 (Details) declares one to
      Option2; Option2 (Options), Delivery2 (Deliveries) and Cached2 (Cached)
      declare none. */
  const OrderMeta: Metadata := map[
    "Order2"    := EntityInfo("Orders", "OrderId",
                     [Relation("Detail2", None, AddDetail), Relation("Delivery2", Some("DeliveryId"), SetDelivery)], 2),
    "Detail2"   := EntityInfo("Details", "DetailId", [Relation("Option2", None, AddOption)], 1),
    "Option2"   := EntityInfo("Options", "OptionId", [], 0),
    "Delivery2" := EntityInfo("Deliveries", "DeliveryId", [], 0),
    "Cached2"   := EntityInfo("Cached", "CachedId", [], 0)
  ]

  /** The repository, with or without an SQL builder factory configured. */
  function OrderRepo(executor: bool): (repo: Repository)
    ensures Ranked(repo.meta) && Closed(repo.meta)
    ensures repo.executor == executor
  {
    Repository(OrderMeta, executor)
  }

  /** Some child holds a descriptor with this name for this entity class. */
  predicate IsChildInList(name: string, entity: TypeName, children: seq<Tree<Descriptor>>)
  {
    exists i :: 0 <= i < |children| && children[i].value.Name() == name && children[i].value.entity == entity
  }

  /** The lookup does not depend on where the child sits: any reordering of
      the children gives the same answer. */
  lemma IsChildInListOrderFree(name: string, entity: TypeName, a: seq<Tree<Descriptor>>, b: seq<Tree<Descriptor>>)
    requires multiset(a) == multiset(b)
    ensures IsChildInList(name, entity, a) == IsChildInList(name, entity, b)
  {
    forall c ensures c in a <==> c in b {
      assert c in a <==> c in multiset(a);
      assert c in b <==> c in multiset(b);
    }
    if IsChildInList(name, entity, a) {
      var i :| 0 <= i < |a| && a[i].value.Name() == name && a[i].value.entity == entity;
      assert a[i] in b;
      var j :| 0 <= j < |b| && b[j] == a[i];
    }
    if IsChildInList(name, entity, b) {
      var j :| 0 <= j < |b| && b[j].value.Name() == name && b[j].value.entity == entity;
      assert b[j] in a;
      var i :| 0 <= i < |a| && a[i] == b[j];
    }
  }

  /** A table's descriptors: the query descriptor the repository builds. */
  function OptionNode(x: bool): Tree<Descriptor> {
    Node(Query("Option2", "Options", "OptionId", "OptionId", Some(AddOption), x), [])
  }
  function DetailNode(x: bool): Tree<Descriptor> {
    Node(Query("Detail2", "Details", "DetailId", "DetailId", Some(AddDetail), x), [OptionNode(x)])
  }
  function DeliveryNode(x: bool): Tree<Descriptor> {
    Node(Query("Delivery2", "Deliveries", "DeliveryId", "DeliveryId", Some(SetDelivery), x), [])
  }
  function OrderTree(x: bool): Tree<Descriptor> {
    Node(Query("Order2", "Orders", "OrderId", "OrderId", None, x), [DetailNode(x), DeliveryNode(x)])
  }

  /** The cache descriptor the callbacks of the tests create for Cached2. */
  const CachedLeaf: Tree<Descriptor> := Node(Cache("Cached2", "CachedId"), [])

  /** Grafts a CachedId leaf under the root and under the node named
      DeliveryId, and otherwise changes nothing. */
  function GraftCached(v: Visit): Customization {
    if v.isRoot || v.info.name == "DeliveryId" then Customization(None, [CachedLeaf], true)
    else Customization(None, [], true)
  }

  /** Replaces the root's descriptor with a Cached2 cache descriptor. */
  function CacheRoot(v: Visit): Customization {
    if v.isRoot then Customization(Some(Cache("Cached2", "CachedId")), [], true)
    else Customization(None, [], true)
  }

  /** Replaces the descriptor of every Detail2 node with a cache descriptor. */
  function CacheDetail(v: Visit): Customization {
    if v.info.entity == "Detail2" then Customization(Some(Cache("Detail2", "DetailId")), [], true)
    else Customization(None, [], true)
  }

  function DeliveryWithCached(x: bool): Tree<Descriptor> {
    Node(DeliveryNode(x).value, [CachedLeaf])
  }
  function GraftedTree(x: bool): Tree<Descriptor> {
    Node(OrderTree(x).value, [CachedLeaf, DetailNode(x), DeliveryWithCached(x)])
  }
  function PrunedTree(x: bool): Tree<Descriptor> {
    Node(OrderTree(x).value, [Node(Cache("Detail2", "DetailId"), []), DeliveryNode(x)])
  }

  /** Evaluation step: a declared child list whose head and tail are known. */
  lemma ChildrenStep(repo: Repository, parent: TypeName, rels: seq<Relation>, cb: Callback,
                     first: Tree<Descriptor>, rest: seq<Tree<Descriptor>>)
    requires Ranked(repo.meta) && parent in repo.meta
    requires forall i :: 0 <= i < |rels| && rels[i].target in repo.meta
               ==> repo.meta[rels[i].target].level < repo.meta[parent].level
    requires rels != [] && rels[0].target in repo.meta
    requires BuildNode(repo, rels[0].target, rels[0].nameOverride, Some(rels[0].member), false, cb) == Success(first)
    requires BuildChildren(repo, parent, rels[1..], cb) == Success(rest)
    ensures BuildChildren(repo, parent, rels, cb) == Success([first] + rest)
  {
  }

  /** Evaluation step: a node the callback leaves query-ready, whose declared
      children are known. */
  lemma NodeStep(repo: Repository, t: TypeName, nameOverride: Option<string>, member: Option<Member>,
                 isRoot: bool, cb: Callback, kids: seq<Tree<Descriptor>>)
    requires Ranked(repo.meta) && t in repo.meta
    requires var v := VisitOf(repo, t, nameOverride, member, isRoot);
             cb(v).replacement.None? && cb(v).descend
    requires BuildChildren(repo, t, repo.meta[t].relations, cb) == Success(kids)
    ensures var v := VisitOf(repo, t, nameOverride, member, isRoot);
            BuildNode(repo, t, nameOverride, member, isRoot, cb) == Success(Node(v.proposed, cb(v).grafted + kids))
  {
  }

  /** The build without a callback yields exactly the four-table tree. */
  lemma PlainBuild(x: bool)
    ensures Build(OrderRepo(x), "Order2", NoCallback) == Success(OrderTree(x))
  {
    var repo := OrderRepo(x);
    assert Declared(repo, "Option2", "OptionId", Some(AddOption), OptionNode(x));
    assert Declared(repo, "Detail2", "DetailId", Some(AddDetail), DetailNode(x));
    assert Declared(repo, "Delivery2", "DeliveryId", Some(SetDelivery), DeliveryNode(x));
    assert Declared(repo, "Order2", "OrderId", None, OrderTree(x));
    NoCallbackTree(repo, "Order2");
    DeclaredUnique(repo, "Order2", "OrderId", None, Build(repo, "Order2", NoCallback).value, OrderTree(x));
  }

  /** The Orders root has exactly two children: DetailId for Detail2 and
      DeliveryId for Delivery2. */
  lemma PlainRootChildren(x: bool)
    ensures var r := Build(OrderRepo(x), "Order2", NoCallback);
            && r.Success? && r.value.value.Query? && r.value.value.table == "Orders"
            && |r.value.children| == 2
            && IsChildInList("DetailId", "Detail2", r.value.children)
            && IsChildInList("DeliveryId", "Delivery2", r.value.children)
  {
    PlainBuild(x);
    var cs := OrderTree(x).children;
    assert cs[0].value.Name() == "DetailId" && cs[0].value.entity == "Detail2";
    assert cs[1].value.Name() == "DeliveryId" && cs[1].value.entity == "Delivery2";
  }

  /** DetailId is named after Detail2's primary-key column, the relation to
      Detail2 giving no name; DeliveryId is the name the relation to Delivery2
      gives. */
  lemma PlainChildNaming(x: bool)
    ensures var r := Build(OrderRepo(x), "Order2", NoCallback);
            && r.Success? && |r.value.children| == 2
            && OrderMeta["Order2"].relations[0].nameOverride.None?
            && r.value.children[0].value.Name() == OrderMeta["Detail2"].pk == "DetailId"
            && OrderMeta["Order2"].relations[1].nameOverride == Some("DeliveryId")
            && r.value.children[1].value.Name() == "DeliveryId"
  {
    PlainBuild(x);
  }

  /** Descent is recursive and ends at classes without relations: the Details
      node has one child, OptionId for Option2; Options and Deliveries have none. */
  lemma PlainDescent(x: bool)
    ensures var r := Build(OrderRepo(x), "Order2", NoCallback);
            && r.Success? && |r.value.children| == 2
            && var details := r.value.children[0];
               var deliveries := r.value.children[1];
               && details.value.Query? && details.value.table == "Details"
               && |details.children| == 1
               && IsChildInList("OptionId", "Option2", details.children)
               && details.children[0].value.Query? && details.children[0].value.table == "Options"
               && details.children[0].children == []
               && deliveries.value.Query? && deliveries.value.table == "Deliveries"
               && deliveries.children == []
  {
    PlainBuild(x);
    assert OrderTree(x).children[0].children[0].value.Name() == "OptionId";
  }

  /** The tree holds the four tables and nothing else, and every node is a
      query descriptor whose row mapper has the executor when the factory is
      configured. */
  lemma PlainOnlyFourTables()
    ensures var r := Build(OrderRepo(true), "Order2", NoCallback);
            && r.Success?
            && Size(r.value) == 4
            && forall k :: 0 <= k < |Traverse(r.value)| ==>
                 && Traverse(r.value)[k].Query?
                 && Traverse(r.value)[k].executorSet
                 && Traverse(r.value)[k].table in {"Orders", "Details", "Options", "Deliveries"}
  {
    PlainBuild(true);
    var t := OrderTree(true);
    assert Traverse(OptionNode(true)) == [OptionNode(true).value];
    assert Traverse(DetailNode(true)) == [DetailNode(true).value, OptionNode(true).value];
    assert Traverse(DeliveryNode(true)) == [DeliveryNode(true).value];
    assert TraverseAll(t.children) == [DetailNode(true).value, OptionNode(true).value, DeliveryNode(true).value];
    assert Traverse(t) == [t.value, DetailNode(true).value, OptionNode(true).value, DeliveryNode(true).value];
  }

  /** Under the grafting callback the Details branch is built as without it. */
  lemma GraftedDetailBranch(x: bool)
    ensures BuildNode(OrderRepo(x), "Detail2", None, Some(AddDetail), false, GraftCached) == Success(DetailNode(x))
  {
    var repo := OrderRepo(x);
    var cb := GraftCached;
    var v := VisitOf(repo, "Option2", None, Some(AddOption), false);
    assert v.proposed == OptionNode(x).value && cb(v).grafted == [];
    NodeStep(repo, "Option2", None, Some(AddOption), false, cb, []);
    assert cb(v).grafted + [] == [];
    assert BuildNode(repo, "Option2", None, Some(AddOption), false, cb) == Success(OptionNode(x));
    var detailRels := repo.meta["Detail2"].relations;
    assert detailRels[0] == Relation("Option2", None, AddOption);
    ChildrenStep(repo, "Detail2", detailRels, cb, OptionNode(x), []);
    assert [OptionNode(x)] + [] == [OptionNode(x)];
    v := VisitOf(repo, "Detail2", None, Some(AddDetail), false);
    assert v.proposed == DetailNode(x).value && cb(v).grafted == [];
    NodeStep(repo, "Detail2", None, Some(AddDetail), false, cb, [OptionNode(x)]);
    assert cb(v).grafted + [OptionNode(x)] == [OptionNode(x)];
  }

  /** Under the grafting callback the Deliveries node gets the CachedId leaf. */
  lemma GraftedDeliveryBranch(x: bool)
    ensures BuildNode(OrderRepo(x), "Delivery2", Some("DeliveryId"), Some(SetDelivery), false, GraftCached)
            == Success(DeliveryWithCached(x))
  {
    var repo := OrderRepo(x);
    var cb := GraftCached;
    var v := VisitOf(repo, "Delivery2", Some("DeliveryId"), Some(SetDelivery), false);
    assert v.proposed == DeliveryNode(x).value && cb(v).grafted == [CachedLeaf];
    NodeStep(repo, "Delivery2", Some("DeliveryId"), Some(SetDelivery), false, cb, []);
    assert cb(v).grafted + [] == [CachedLeaf];
  }

  /** The build with the grafting callback: the declared tree plus the
      CachedId leaves, grafted ahead of the declared children. */
  lemma GraftedBuild(x: bool)
    ensures Build(OrderRepo(x), "Order2", GraftCached) == Success(GraftedTree(x))
  {
    var repo := OrderRepo(x);
    var cb := GraftCached;
    GraftedDetailBranch(x);
    GraftedDeliveryBranch(x);
    var rels := repo.meta["Order2"].relations;
    assert rels[0] == Relation("Detail2", None, AddDetail);
    assert rels[1..][0] == Relation("Delivery2", Some("DeliveryId"), SetDelivery);
    assert rels[1..][1..] == [];
    ChildrenStep(repo, "Order2", rels[1..], cb, DeliveryWithCached(x), []);
    assert [DeliveryWithCached(x)] + [] == [DeliveryWithCached(x)];
    ChildrenStep(repo, "Order2", rels, cb, DetailNode(x), [DeliveryWithCached(x)]);
    assert [DetailNode(x)] + [DeliveryWithCached(x)] == [DetailNode(x), DeliveryWithCached(x)];
    var v := VisitOf(repo, "Order2", None, None, true);
    assert v.proposed == OrderTree(x).value && cb(v).grafted == [CachedLeaf];
    NodeStep(repo, "Order2", None, None, true, cb, [DetailNode(x), DeliveryWithCached(x)]);
    assert cb(v).grafted + [DetailNode(x), DeliveryWithCached(x)] == GraftedTree(x).children;
  }

  /** Grafted children are kept beside the declared ones: the root (OrderId)
      has three children, DetailId, DeliveryId and CachedId, and DeliveryId
      has one, CachedId. */
  lemma GraftsAddChildren(x: bool)
    ensures var r := Build(OrderRepo(x), "Order2", GraftCached);
            && r.Success? && r.value.value.Name() == "OrderId"
            && |r.value.children| == 3
            && IsChildInList("DetailId", "Detail2", r.value.children)
            && IsChildInList("DeliveryId", "Delivery2", r.value.children)
            && IsChildInList("CachedId", "Cached2", r.value.children)
            && r.value.children[2].value.Name() == "DeliveryId"
            && |r.value.children[2].children| == 1
            && IsChildInList("CachedId", "Cached2", r.value.children[2].children)
  {
    GraftedBuild(x);
    var cs := GraftedTree(x).children;
    assert cs[0].value.Name() == "CachedId" && cs[0].value.entity == "Cached2";
    assert cs[1].value.Name() == "DetailId" && cs[1].value.entity == "Detail2";
    assert cs[2].value.Name() == "DeliveryId" && cs[2].value.entity == "Delivery2";
    assert cs[2].children[0].value.Name() == "CachedId";
  }

  /** Grafting changes no other subtree: DetailId still has only OptionId,
      OptionId has no child, and both grafted CachedId nodes are leaves; the
      tree without the callback sits inside it unchanged. */
  lemma GraftsLeaveOthersAlone(x: bool)
    ensures var r := Build(OrderRepo(x), "Order2", GraftCached);
            && r.Success? && |r.value.children| == 3
            && r.value.children[1].value.Name() == "DetailId"
            && |r.value.children[1].children| == 1
            && IsChildInList("OptionId", "Option2", r.value.children[1].children)
            && r.value.children[1].children[0].children == []
            && r.value.children[0].value.Name() == "CachedId" && r.value.children[0].children == []
            && |r.value.children[2].children| == 1
            && r.value.children[2].children[0].value.Name() == "CachedId"
            && r.value.children[2].children[0].children == []
            && Embeds(OrderTree(x), r.value)
  {
    GraftedBuild(x);
    PlainBuild(x);
    var repo := OrderRepo(x);
    assert GraftOnly(GraftCached);
    GraftsKeepDeclaredNode(repo, "Order2", None, None, true, GraftCached);
    assert GraftedTree(x).children[1].children[0].value.Name() == "OptionId";
  }

  /** Turning the root into a cache descriptor makes the build fail with no tree. */
  lemma CacheRootFails(x: bool)
    ensures Build(OrderRepo(x), "Order2", CacheRoot) == Failure(NonQueryReadyRoot("Order2"))
  {
  }

  /** The build with the callback that caches Detail2. */
  lemma PrunedBuild(x: bool)
    ensures Build(OrderRepo(x), "Order2", CacheDetail) == Success(PrunedTree(x))
  {
    var repo := OrderRepo(x);
    var cb := CacheDetail;
    var v := VisitOf(repo, "Detail2", None, Some(AddDetail), false);
    assert cb(v) == Customization(Some(Cache("Detail2", "DetailId")), [], true);
    PrunedNodeKeepsOnlyGrafts(repo, "Detail2", None, Some(AddDetail), cb);
    var cached := Node(Cache("Detail2", "DetailId"), []);
    assert BuildNode(repo, "Detail2", None, Some(AddDetail), false, cb) == Success(cached);
    v := VisitOf(repo, "Delivery2", Some("DeliveryId"), Some(SetDelivery), false);
    assert v.proposed == DeliveryNode(x).value && cb(v) == Customization(None, [], true);
    NodeStep(repo, "Delivery2", Some("DeliveryId"), Some(SetDelivery), false, cb, []);
    assert cb(v).grafted + [] == [];
    assert BuildNode(repo, "Delivery2", Some("DeliveryId"), Some(SetDelivery), false, cb) == Success(DeliveryNode(x));
    var rels := repo.meta["Order2"].relations;
    assert rels[0] == Relation("Detail2", None, AddDetail);
    assert rels[1..][0] == Relation("Delivery2", Some("DeliveryId"), SetDelivery);
    assert rels[1..][1..] == [];
    ChildrenStep(repo, "Order2", rels[1..], cb, DeliveryNode(x), []);
    assert [DeliveryNode(x)] + [] == [DeliveryNode(x)];
    ChildrenStep(repo, "Order2", rels, cb, cached, [DeliveryNode(x)]);
    assert [cached] + [DeliveryNode(x)] == [cached, DeliveryNode(x)];
    v := VisitOf(repo, "Order2", None, None, true);
    assert v.proposed == OrderTree(x).value && cb(v) == Customization(None, [], true);
    NodeStep(repo, "Order2", None, None, true, cb, [cached, DeliveryNode(x)]);
    assert cb(v).grafted + [cached, DeliveryNode(x)] == PrunedTree(x).children;
  }

  /** Turning the Detail2 node into a cache descriptor keeps the node but
      never builds what Detail2 declares: root, Detail and Delivery, three
      nodes, and no Option2 node anywhere. */
  lemma CachedBranchPruned(x: bool)
    ensures var r := Build(OrderRepo(x), "Order2", CacheDetail);
            && r.Success?
            && Size(r.value) == 3
            && r.value.children[0].value == Cache("Detail2", "DetailId")
            && r.value.children[0].children == []
            && forall k :: 0 <= k < |Traverse(r.value)| ==> Traverse(r.value)[k].entity != "Option2"
  {
    PrunedBuild(x);
    var t := PrunedTree(x);
    var cached := t.children[0];
    assert Traverse(cached) == [cached.value];
    assert Traverse(DeliveryNode(x)) == [DeliveryNode(x).value];
    assert TraverseAll(t.children) == [cached.value, DeliveryNode(x).value];
    assert Traverse(t) == [t.value, cached.value, DeliveryNode(x).value];
  }
}

=== FILE: results.dfy ===
/** Wrappers used by the tree builder: an optional value, and a
    success-or-error outcome that can be used with `:-`. */
module Results {

  /** An optional value; `None` stands for the absent (Java `null`) case. */
  datatype Option<+T> = None | Some(value: T) {

    /** The wrapped value, or `default` when there is none. */
    function GetOr(default: T): T
    {
      match this
      case Some(v) => v
      case None => default
    }
  }

  /** Either a value or the error that aborted the computation. */
  datatype Result<+R, +E> = Success(value: R) | Failure(error: E) {

    predicate IsFailure() {
      Failure?
    }

    function PropagateFailure<U>(): Result<U, E>
      requires Failure?
    {
      Failure(error)
    }

    function Extract(): R
      requires Success?
    {
      value
    }
  }
}

=== FILE: trees.dfy ===
/** The generic ordered-children tree that holds one value per node. Root-ness
    is structural: a node is the root because nothing above it is passed along. */
module Trees {

  datatype Tree<T> = Node(value: T, children: seq<Tree<T>>)

  /** The values in the order a pre-order traversal visits them: the node
      itself first, then each child's subtree in child order. */
  function Traverse<T>(t: Tree<T>): (r: seq<T>)
    ensures |r| >= 1 && r[0] == t.value
    ensures |r| > |t.children|
    decreases t, 1
  {
    [t.value] + TraverseAll(t.children)
  }

  /** The traversals of a sequence of sibling subtrees, one after the other. */
  function TraverseAll<T>(ts: seq<Tree<T>>): (r: seq<T>)
    ensures |r| >= |ts|
    decreases ts, 0
  {
    if ts == [] then [] else Traverse(ts[0]) + TraverseAll(ts[1..])
  }

  /** Number of nodes a traversal visits. */
  function Size<T>(t: Tree<T>): nat {
    |Traverse(t)|
  }

  /** `p` holds of the value stored at every node of `t`. */
  ghost predicate All<T>(t: Tree<T>, p: T -> bool) {
    Everywhere(t, (n: Tree<T>) => p(n.value))
  }

  /** `p` holds of every node (as a subtree) of `t`. */
  ghost predicate Everywhere<T>(t: Tree<T>, p: Tree<T> -> bool)
    decreases t
  {
    p(t) && forall i :: 0 <= i < |t.children| ==> Everywhere(t.children[i], p)
  }

  /** `small` sits inside `big` with the same values, each node's children of
      `small` matching the LAST children of the corresponding node of `big`:
      `big` is `small` with extra children put in front at some nodes. */
  ghost predicate Embeds<T>(small: Tree<T>, big: Tree<T>)
    decreases small
  {
    && small.value == big.value
    && |small.children| <= |big.children|
    && forall i :: 0 <= i < |small.children| ==>
         Embeds(small.children[i], big.children[|big.children| - |small.children| + i])
  }

  /** Holding `p` at every node is the same as `p` holding of every value the
      traversal visits. */
  lemma {:induction false} AllIffTraverse<T>(t: Tree<T>, p: T -> bool)
    ensures All(t, p) <==> forall k :: 0 <= k < |Traverse(t)| ==> p(Traverse(t)[k])
    decreases t, 1
  {
    AllIffTraverseAll(t.children, p);
    var rest := TraverseAll(t.children);
    assert Traverse(t) == [t.value] + rest;
    assert forall k :: 0 <= k < |rest| ==> Traverse(t)[k + 1] == rest[k];
    if forall k :: 0 <= k < |Traverse(t)| ==> p(Traverse(t)[k]) {
      assert p(Traverse(t)[0]);
      forall k | 0 <= k < |rest| ensures p(rest[k]) {
        assert p(Traverse(t)[k + 1]);
      }
    }
  }

  lemma {:induction false} AllIffTraverseAll<T>(ts: seq<Tree<T>>, p: T -> bool)
    ensures (forall i :: 0 <= i < |ts| ==> All(ts[i], p))
            <==> forall k :: 0 <= k < |TraverseAll(ts)| ==> p(TraverseAll(ts)[k])
    decreases ts, 0
  {
    if ts != [] {
      AllIffTraverse(ts[0], p);
      AllIffTraverseAll(ts[1..], p);
      var a, b := Traverse(ts[0]), TraverseAll(ts[1..]);
      assert TraverseAll(ts) == a + b;
      if forall i :: 0 <= i < |ts| ==> All(ts[i], p) {
        assert forall i :: 0 <= i < |ts[1..]| ==> All(ts[1..][i], p) by {
          forall i | 0 <= i < |ts[1..]| ensures All(ts[1..][i], p) {
            assert ts[1..][i] == ts[i + 1];
          }
        }
        assert All(ts[0], p);
        assert forall j :: 0 <= j < |Traverse(ts[0])| ==> p(Traverse(ts[0])[j]);
        forall k | 0 <= k < |a + b| ensures p((a + b)[k]) {
          if k < |a| {
            assert (a + b)[k] == a[k];
            assert p(a[k]);
          } else {
            assert (a + b)[k] == b[k - |a|];
            assert p(b[k - |a|]);
          }
        }
      }
      if forall k :: 0 <= k < |a + b| ==> p((a + b)[k]) {
        forall k | 0 <= k < |a| ensures p(a[k]) { assert (a + b)[k] == a[k]; }
        forall k | 0 <= k < |b| ensures p(b[k]) { assert (a + b)[|a| + k] == b[k]; }
        forall i | 0 <= i < |ts| ensures All(ts[i], p) {
          if i > 0 { assert ts[i] == ts[1..][i - 1]; }
        }
      }
    }
  }
}
